=== FILE: README.md ===
# Tow-service pricing, modelled in Dafny

This project models the pricing core of a tow-truck booking web application. It also proves properties about that model. The core consists of:

- **Truck catalog** (`towTruckTypes`). Four truck classes, A to D. Each class has a per-kilometre rate, a special-maneuver surcharge and a rated maximum weight.
- **Pricing engine** (`calculateTotalCost`). It computes distance × rate, adds the maneuver surcharge and the tolls, and applies 16% tax when an invoice is requested. It also covers what happens when the truck-type key is empty, unknown, or the name of a property inherited from `Object.prototype`.
- **Vehicle classifier** (`getTruckTypeForVehicle`). It lower-cases a free-text model and tests keywords in a fixed priority order: pickup/suv → B, then camion/truck → D, then van/minivan → C, otherwise A.
- **Cost card arithmetic** (`CostEstimation`). The card re-splits an already computed total into "Servicio base", a 10% service fee, a 16% IVA and the tolls. It also shows an estimated travel time and a headline amount. This is a second, display-only decomposition. It is kept separate from the engine and never used to recompute a price.
- **Service-request export** (`generateServiceInfo`, `downloadServiceInfo`):
  - the cost figures: engine price with no tolls and no invoice, plus the toll fees;
  - what happens when a location is missing or a call throws;
  - the fixed 32-row layout;
  - the CSV encoding: byte-order mark, comma rows quoted, rows joined by `\n`;
  - the plain-text encoding.
- **Notification cooldown** (`shouldShowNotification`). A per-key rate limiter. It is written as a pure step function over an explicit timestamp map and an explicit clock reading `now`. The key each `show*` function uses is part of the model.

Money and distances are exact `real`s, and 16% is `16.0 / 100.0`. JavaScript's `NaN` appears through the `JsNumber.Number` datatype. It is the only non-finite value modelled; overflow to ±`Infinity` is left out.

Modules: `Wrappers` (Option/Result), `JsNumber`, `Text` (`includes`, `join`, `split`), `Catalog`, `Pricing`, `Classifier`, `CostDisplay`, `ServiceExport`, `Notifications`.

### Behaviour worth knowing

- **Classifier priority.** Pickup/suv is tested first, then camion/truck, then van. So "Pickup Truck" is class B.
- **Negative distance** is priced like any other number.
- **Bad truck keys.** There are two outcomes:
  - a key with no catalog entry makes reading `perKm` throw a TypeError;
  - a key such as `toString` or `__proto__` yields an inherited member, and the price comes out `NaN`.
- **Missing locations in the export.** A missing location prints as "Not specified" in the address row. Its coordinates print as `undefined, undefined`, because optional chaining yields `undefined` for both fields.
- **Display base.** The card's "base cost" is the total minus the tolls, with nothing else taken off. Its IVA line is 16% of that base, whether or not the engine taxed the price.

## Model

| member | source | states |
|---|---|---|
| Catalog.Lookup | src/utils/towTruckPricing.ts:9-38 | a key has a catalog entry exactly when it is one of the catalog's own keys; the class found is stored under that key with that record |
| Catalog.LookupKey | src/utils/towTruckPricing.ts:9-38 | every class is found again under its own key |
| Catalog.CatalogContents | src/utils/towTruckPricing.ts:9-38 | the catalog has exactly the keys A, B, C, D with rates 25/35/45/60, surcharges 500/750/1000/1500 and weights 2000/3000/4000/8000 |
| Catalog.StrictlyIncreasing | src/utils/towTruckPricing.ts:9-38 | rate, maneuver surcharge and maximum weight all strictly increase along A < B < C < D |
| Catalog.PositiveRates | src/utils/towTruckPricing.ts:9-38 | every rate, surcharge and weight limit is positive |
| Pricing.ResolveTruck | src/utils/towTruckPricing.ts:47 | an empty truck type selects A; a record is found exactly for the empty key and the catalog keys, under that key; an inherited result arises exactly for `Object.prototype` member names |
| Pricing.QuoteFor | src/utils/towTruckPricing.ts:48-52 | total = subtotal + tax, subtotal = base + maneuver + tolls; a maneuver cost arises iff requested; tax is zero iff no invoice or zero subtotal; for distance and tolls ≥ 0, total ≥ subtotal ≥ base ≥ 0, and total equals subtotal iff no tax was added |
| Pricing.CalculateTotalCost | src/utils/towTruckPricing.ts:40-53 | fails with a TypeError exactly for undefined entries, gives NaN exactly for inherited names, and otherwise equals (distance·perKm + surcharge-if-maneuver + tolls) × (1.16 with invoice, else 1) |
| Pricing.DefaultArguments | src/utils/towTruckPricing.ts:44-45 | omitting tolls and invoice flag prices with tolls 0 and no invoice |
| Pricing.EmptyTruckTypeIsA | src/utils/towTruckPricing.ts:47 | an empty truck type is priced exactly as class A |
| Pricing.FinitePriceIffKnownKey | src/utils/towTruckPricing.ts:47-48 | a finite price comes out iff the key is "", A, B, C or D |
| Pricing.UnknownKeyThrows | src/utils/towTruckPricing.ts:47-48 | any other key that is not an inherited name makes the call throw |
| Pricing.InvoiceAddsTax | src/utils/towTruckPricing.ts:51-52 | the invoiced price is the plain price times 1.16 |
| Pricing.TollsPassThrough | src/utils/towTruckPricing.ts:50-52 | tolls add at face value without invoice and are taxed with one |
| Pricing.ManeuverSurcharge | src/utils/towTruckPricing.ts:49-52 | the maneuver flag adds exactly the class surcharge (times 1.16 with invoice) |
| Pricing.CostIncreasesWithDistance | src/utils/towTruckPricing.ts:40-53 | with everything else fixed the price is strictly increasing in distance |
| Pricing.CostOrderedByClass | src/utils/towTruckPricing.ts:9-53 | for distance ≥ 0 and equal flags and tolls, a higher class never costs less |
| Pricing.ExampleWithoutInvoice | src/utils/towTruckPricing.ts:40-53 | 100 km, class B, maneuver, 80 tolls, no invoice: base 3500, maneuver 750, total 4330 |
| Pricing.ExampleWithInvoice | src/utils/towTruckPricing.ts:40-53 | the same with invoice: tax 692.80, total 5022.80 |
| Text.ContainsIffOccurs | src/utils/towTruckPricing.ts:58-63 | `includes` holds iff the keyword occurs at some index of the string |
| Classifier.ToLowerIdempotent | src/utils/towTruckPricing.ts:56 | lower-casing twice equals lower-casing once |
| Classifier.ClassifyIgnoresCase | src/utils/towTruckPricing.ts:56-66 | two models that agree up to case get the same class |
| Classifier.ClassifyLowered | src/utils/towTruckPricing.ts:56-66 | classifying the lower-cased model gives the same class |
| Classifier.ClassifierIsRuleTable | src/utils/towTruckPricing.ts:58-66 | the classifier equals a first-match reading of the ordered rule table (pickup/suv→B, camion/truck→D, van/minivan→C) with fallback A |
| Classifier.GetTruckTypeForVehicle | src/utils/towTruckPricing.ts:55-66 | on the lower-cased model: B iff pickup or suv; D iff not B and camion or truck; C iff neither and van (a minivan always mentions van); A iff none of the keywords |
| Classifier.ToLower | src/utils/towTruckPricing.ts:56 | no ASCII capital letter is left, and the result is never shorter than the input |
| Classifier.ToLowerPointwise | src/utils/towTruckPricing.ts:56 | for a model without U+0130 the lower-cased text has the same length and each character is that character's lower case |
| Classifier.KeywordPriority | src/utils/towTruckPricing.ts:58-63 | pickup/suv gives B even with truck or van; camion/truck never yields C; a minivan is never A |
| Classifier.MinivanIsVan | src/utils/towTruckPricing.ts:62 | every string containing "minivan" contains "van", so the minivan test is subsumed |
| Classifier.PickupTruckIsB | src/utils/towTruckPricing.ts:58-59 | "Pickup Truck" is classed B |
| Classifier.SuggestedClassIsPriced | src/utils/towTruckPricing.ts:55-66 | the class the classifier returns always prices to a finite amount |
| CostDisplay.Decompose | src/components/CostEstimation.tsx:12-14 | base + tolls = total; fee is one tenth and IVA 16% of the base; core service is 74% of the base; core + fee + IVA + tolls = total; toll line shown iff tolls > 0 (the core amount is the one printed at line 95, and the visibility is the guard at line 105) |
| CostDisplay.RenderedLines | src/components/CostEstimation.tsx:93-110 | in order: 74% of (total − tolls) as "Servicio base", 10% as the fee, 16% as IVA, then the tolls exactly when they are positive |
| CostDisplay.RenderedLinesSumToTotal | src/components/CostEstimation.tsx:93-113 | the rendered lines sum to the total iff the tolls are not negative |
| CostDisplay.IvaShownOnUntaxedPrice | src/components/CostEstimation.tsx:12-14 | for a no-invoice price the engine tax is 0 but the card shows 16% of base + maneuver as IVA |
| CostDisplay.DecompositionsDisagree | src/components/CostEstimation.tsx:12-14 | for the invoiced example the engine tax is 692.80 while the card shows 790.848 |
| CostDisplay.Headline | src/components/CostEstimation.tsx:41 | whenever zero formats as "0.00" the headline equals the formatted total, i.e. the "Total" line |
| CostDisplay.EstimatedHours | src/components/CostEstimation.tsx:61 | 0 for zero distance, otherwise the least h with distance ≤ 50·h |
| CostDisplay.EstimatedHoursMonotone | src/components/CostEstimation.tsx:61 | a positive distance takes at least one hour, and a longer one never fewer hours |
| ServiceExport.CostFiguresOf | src/utils/downloadUtils.ts:38-50 | distance and cost stay 0 without both locations or without a route; with a route, the distance is the route's; the cost is engine price (no tolls, no invoice) + toll fees, 0 if pricing throws, NaN for inherited keys |
| ServiceExport.ServiceCost | src/utils/downloadUtils.ts:83 | "Service Cost" is finite iff the total is, and then "Service Cost" plus the toll fees gives back the total |
| ServiceExport.ServiceCostIsEngineCostWithoutTolls | src/utils/downloadUtils.ts:83 | on a priced route "Service Cost" equals the engine price without tolls |
| ServiceExport.TollsNeverTaxed | src/utils/downloadUtils.ts:45-46 | the exported total equals the engine's no-invoice price with the tolls passed in |
| ServiceExport.NegativeServiceCostWithoutRoute | src/utils/downloadUtils.ts:38-50 | without a priced route and with positive tolls, "Service Cost" is negative |
| ServiceExport.GenerateServiceInfo | src/utils/downloadUtils.ts:52-85 | exactly 32 rows, each starting with the fixed label of its position in the layout, whatever the input |
| ServiceExport.FixedRows | src/utils/downloadUtils.ts:53-80 | the eight section titles and the six blank separator lines are exactly their fixed text |
| ServiceExport.ValueRows | src/utils/downloadUtils.ts:54-78 | each labelled row carries its own field: the date, the user name, the pickup and drop-off addresses and coordinates, make, model, year and color, service type, truck type, Yes/No for the maneuver, and the issue description |
| ServiceExport.MissingLocationRows | src/utils/downloadUtils.ts:31-66 | a missing pickup or drop-off location is exported as "Complete Address: Not specified" and "Coordinates: undefined, undefined" |
| ServiceExport.InheritedKeyRows | src/utils/downloadUtils.ts:45-84 | on a route, a truck type naming an inherited `Object.prototype` member prints "Service Cost: $NaN" and "Total Cost: $NaN" |
| ServiceExport.Coordinates | src/utils/downloadUtils.ts:62-66 | the coordinates text always holds a comma; for a present location it starts with the formatted latitude and ", " |
| ServiceExport.CostRows | src/utils/downloadUtils.ts:81-84 | the last four rows are Total Distance, Toll Fees, Service Cost (engine price without tolls), Total Cost (engine price with tolls) |
| ServiceExport.UnquoteQuote | src/utils/downloadUtils.ts:109 | quoting a row is undone by reading it back, so distinct rows never quote alike |
| ServiceExport.QuoteRow | src/utils/downloadUtils.ts:109 | a row with a comma is wrapped in one pair of double quotes with its text unchanged inside; any other row is kept as is |
| ServiceExport.EncodeTxt | src/utils/downloadUtils.ts:113 | rows without newlines are recovered by splitting the text on newlines |
| ServiceExport.EncodeCsv | src/utils/downloadUtils.ts:109 | the CSV text starts with U+FEFF, and when no row holds a newline its lines behind the mark are exactly the quoted rows |
| ServiceExport.CommaRowQuoted | src/utils/downloadUtils.ts:109 | a row holding a comma is wrapped in quotes in the CSV, and is the CSV line at its own position when no row holds a newline |
| ServiceExport.CsvIsMarkedTxtWithoutCommas | src/utils/downloadUtils.ts:109-113 | with no comma in any row, the CSV is the text file behind the byte-order mark |
| ServiceExport.SameLineCount | src/utils/downloadUtils.ts:109-113 | CSV and text file hold the same number of newlines: one between rows plus those inside rows |
| ServiceExport.RowsRecoverable | src/utils/downloadUtils.ts:109-113 | rows without newlines are recovered by splitting the text file, and by splitting and unquoting the CSV |
| ServiceExport.CoordinateRowsQuoted | src/utils/downloadUtils.ts:62-66 | the coordinate rows always contain a comma, so the CSV always quotes them; with no newline in any row they are the CSV's tenth and fourteenth lines, in quotes |
| ServiceExport.DownloadServiceInfo | src/utils/downloadUtils.ts:108-116 | the CSV download always starts with the byte-order mark |
| ServiceExport.DownloadsCarrySameRows | src/utils/downloadUtils.ts:108-116 | for newline-free rows the two downloads carry the same lines: the text download splits into the rows, and the CSV download behind its mark splits into the quoted rows, which unquote to the same lines |
| Text.SplitJoin | src/utils/downloadUtils.ts:113 | splitting the newline join of rows without newlines gives the rows back |
| Notifications.ShouldShowNotification | src/utils/notificationUtils.tsx:8-17 | shown iff now − last > 3000 (a never-seen key counts as last shown at 0); shown sets the key to now, suppressed leaves the map unchanged; other keys never change |
| Notifications.SuppressedWithinCooldown | src/utils/notificationUtils.tsx:8-16 | after a shown call, a call for the same key at most 3000 ms later is suppressed |
| Notifications.SuppressedCallDoesNotRestartCooldown | src/utils/notificationUtils.tsx:12-16 | a suppressed call does not restart the cooldown: calls at 3000 and 3001 for a fresh key give suppressed, then shown |
| Notifications.Key | src/utils/notificationUtils.tsx:20-56 | the key is "payment" exactly for payment results, and starts with "location_" exactly for location notifications |
| Notifications.SharedKeys | src/utils/notificationUtils.tsx:20-56 | two notifications share a cooldown key iff they are equal or both payment results |
| Notifications.Show | src/utils/notificationUtils.tsx:20-56 | a `show*` call displays iff its key is out of cooldown, and leaves other keys' timestamps alone |
| Notifications.FailureSuppressedAfterSuccess | src/utils/notificationUtils.tsx:56 | a payment failure within 3000 ms of a shown payment success is suppressed |
| Notifications.PickupDoesNotSilenceDrop | src/utils/notificationUtils.tsx:20 | a pickup notification never changes whether a drop-off notification is shown |
| Notifications.ReplayRemembersShown | src/utils/notificationUtils.tsx:8-17 | after any call sequence, a shown call's key carries a timestamp no earlier than that call |
| Notifications.ShownCallsAreSpaced | src/utils/notificationUtils.tsx:5-17 | in any call sequence, two shown calls for the same key are more than 3000 ms apart |

## Left out
- **Floating point and formatting.** Numbers are exact reals, so IEEE-754 rounding and infinities are not modelled. `toFixed`, `toLocaleString` and `getTime` are opaque inputs: formatter functions and strings.
- **I/O calls become inputs.** Geocoding, routing and the clock enter through `ServiceExport.Environment`. A route service that throws is `None`. A throwing geocoder would make the whole export fail; that is not modelled because the geocoding service is not part of this model.
- **UI side effects.** Blob, URL and DOM download plumbing, the success/failure toasts, React rendering, and the toast titles and descriptions are not modelled.
- **Lower-casing.** `Classifier.LowerChar` covers only the characters whose lower case contains an ASCII letter: A–Z, KELVIN SIGN and LATIN CAPITAL LETTER I WITH DOT ABOVE. Every other character is kept unchanged. Full Unicode case mapping is not modelled, because no other character can change a keyword test.
- **Notification keys.** `Notifications.ShouldShowNotification` treats every key as an own property. A key naming an `Object.prototype` member would behave differently in JavaScript. The module only ever passes the four fixed keys, so this never arises.
- **Import mismatches.** `src/components/VehicleForm.tsx:17` imports `getTowTruckType`, but the pricing file exports `getTruckTypeForVehicle`. `src/components/VehicleForm.tsx:11` imports a `TowTruckType` type that `downloadUtils.ts` does not export. Both are noted here only.
- **Rest of the application.** The map, location search, vehicle form and form hook are presentation glue, including the hard-coded `requiresManeuver: false` of the form hook. The context that supplies `totalCost` to the cost card is not part of this model.

=== FILE: catalog.dfy ===
/**
  The fixed catalog of tow-truck classes (`towTruckTypes`): per-kilometre
  rate, special-maneuver surcharge and rated maximum weight of each class.
 */
module Catalog {
  import opened Wrappers

  datatype TruckClass = A | B | C | D

  /** One catalog record; money in pesos, weight in kilograms. */
  datatype TowTruckType = TowTruckType(
    name: string,
    capacity: string,
    perKm: real,
    maneuverCharge: real,
    maxWeight: int)

  /** Position of a class in the catalog order. */
  function Rank(c: TruckClass): nat {
    match c
    case A => 0
    case B => 1
    case C => 2
    case D => 3
  }

  /** The property name a class is stored under. */
  function Key(c: TruckClass): string {
    match c
    case A => "A"
    case B => "B"
    case C => "C"
    case D => "D"
  }

  function Entry(c: TruckClass): TowTruckType {
    match c
    case A => TowTruckType("Tipo A", "hasta 2000kg", 25.0, 500.0, 2000)
    case B => TowTruckType("Tipo B", "hasta 3000kg", 35.0, 750.0, 3000)
    case C => TowTruckType("Tipo C", "hasta 4000kg", 45.0, 1000.0, 4000)
    case D => TowTruckType("Tipo D", "hasta 8000kg", 60.0, 1500.0, 8000)
  }

  /** The catalog object as a key-to-record map. */
  const TowTruckTypes: map<string, TowTruckType> :=
    map["A" := Entry(A), "B" := Entry(B), "C" := Entry(C), "D" := Entry(D)]

  /** Own-property lookup in the catalog object. */
  function Lookup(key: string): (r: Option<TruckClass>)
    ensures r.Some? <==> key in TowTruckTypes
    ensures r.Some? ==> Key(r.value) == key && TowTruckTypes[key] == Entry(r.value)
  {
    if key == "A" then Some(A)
    else if key == "B" then Some(B)
    else if key == "C" then Some(C)
    else if key == "D" then Some(D)
    else None
  }

  /** Every class is found again under its own key. */
  lemma LookupKey(c: TruckClass)
    ensures Lookup(Key(c)) == Some(c)
  {
  }

  /** The catalog has exactly the four keys, with the listed figures. */
  lemma CatalogContents()
    ensures TowTruckTypes.Keys == {"A", "B", "C", "D"}
    ensures TowTruckTypes["A"].perKm == 25.0 && TowTruckTypes["A"].maneuverCharge == 500.0 && TowTruckTypes["A"].maxWeight == 2000
    ensures TowTruckTypes["B"].perKm == 35.0 && TowTruckTypes["B"].maneuverCharge == 750.0 && TowTruckTypes["B"].maxWeight == 3000
    ensures TowTruckTypes["C"].perKm == 45.0 && TowTruckTypes["C"].maneuverCharge == 1000.0 && TowTruckTypes["C"].maxWeight == 4000
    ensures TowTruckTypes["D"].perKm == 60.0 && TowTruckTypes["D"].maneuverCharge == 1500.0 && TowTruckTypes["D"].maxWeight == 8000
  {
  }

  /** Rate, surcharge and weight limit all strictly increase from A to D. */
  lemma StrictlyIncreasing(c1: TruckClass, c2: TruckClass)
    requires Rank(c1) < Rank(c2)
    ensures Entry(c1).perKm < Entry(c2).perKm
    ensures Entry(c1).maneuverCharge < Entry(c2).maneuverCharge
    ensures Entry(c1).maxWeight < Entry(c2).maxWeight
  {
  }

  /** Every rate and surcharge is positive. */
  lemma PositiveRates(c: TruckClass)
    ensures Entry(c).perKm > 0.0 && Entry(c).maneuverCharge > 0.0 && Entry(c).maxWeight > 0
  {
  }
}

=== FILE: classifier.dfy ===
/**
  `getTruckTypeForVehicle`: a keyword classifier from a free-text vehicle
  model to a truck class, tested in a fixed priority order.
 */
module Classifier {
  import opened Text
  import opened Catalog
  import Pricing
  import JsNumber
  import Wrappers

  /**
    `toLowerCase` of one character, as far as it can matter to ASCII keywords:
    ASCII capitals, KELVIN SIGN (lower-cased to `k`) and LATIN CAPITAL LETTER I
    WITH DOT ABOVE (lower-cased to `i` followed by COMBINING DOT ABOVE). No other
    character lower-cases to anything containing an ASCII letter, so keeping the
    remaining characters as they are leaves every keyword test unchanged.
   */
  function LowerChar(c: char): string {
    if 'A' <= c <= 'Z' then [(c as int + 32) as char]
    else if c == '\U{212A}' then "k"
    else if c == '\U{0130}' then "i\U{0307}"
    else [c]
  }

  /** `toLowerCase`, character by character: no ASCII capital survives it. */
  function ToLower(s: string): (r: string)
    ensures |r| >= |s|
    ensures forall i :: 0 <= i < |r| ==> !('A' <= r[i] <= 'Z')
    decreases |s|
  {
    if |s| == 0 then "" else LowerChar(s[0]) + ToLower(s[1..])
  }

  /**
    Away from U+0130, the one character whose lower case is two characters long,
    lower-casing maps each character to its own lower case, position by position.
   */
  lemma {:induction false} ToLowerPointwise(s: string)
    requires forall i :: 0 <= i < |s| ==> s[i] != '\U{0130}'
    ensures |ToLower(s)| == |s|
    ensures forall i :: 0 <= i < |s| ==> ToLower(s)[i] == LowerChar(s[i])[0]
    decreases |s|
  {
    if |s| > 0 {
      ToLowerPointwise(s[1..]);
      assert |LowerChar(s[0])| == 1;
      forall i | 0 <= i < |s|
        ensures ToLower(s)[i] == LowerChar(s[i])[0]
      {
        if i > 0 {
          assert ToLower(s)[i] == ToLower(s[1..])[i - 1];
          assert s[1..][i - 1] == s[i];
        }
      }
    }
  }

  lemma {:induction false} ToLowerAppend(a: string, b: string)
    ensures ToLower(a + b) == ToLower(a) + ToLower(b)
    decreases |a|
  {
    if |a| == 0 {
      assert a + b == b;
    } else {
      assert (a + b)[1..] == a[1..] + b;
      ToLowerAppend(a[1..], b);
    }
  }

  lemma LowerCharIsLower(c: char)
    ensures ToLower(LowerChar(c)) == LowerChar(c)
  {
    if c == '\U{0130}' {
      assert ToLower("i\U{0307}") == "i" + ToLower("\U{0307}");
    } else {
      assert ToLower(LowerChar(c)) == LowerChar(LowerChar(c)[0]) + ToLower([]);
    }
  }

  /** Lower-casing twice is lower-casing once. */
  lemma {:induction false} ToLowerIdempotent(s: string)
    ensures ToLower(ToLower(s)) == ToLower(s)
    decreases |s|
  {
    if |s| > 0 {
      ToLowerAppend(LowerChar(s[0]), ToLower(s[1..]));
      LowerCharIsLower(s[0]);
      ToLowerIdempotent(s[1..]);
    }
  }

  /** Strings that agree up to case lower-case to the same string. */
  lemma {:induction false} ToLowerIgnoresCase(s: string, t: string)
    requires |s| == |t|
    requires forall i :: 0 <= i < |s| ==> LowerChar(s[i]) == LowerChar(t[i])
    ensures ToLower(s) == ToLower(t)
    decreases |s|
  {
    if |s| > 0 {
      ToLowerIgnoresCase(s[1..], t[1..]);
    }
  }

  /**
    The class for a vehicle model: pickup/suv, then camion/truck, then
    van/minivan. Each class is characterized by which keywords the lower-cased
    model mentions; "minivan" adds nothing, since it always contains "van".
   */
  function GetTruckTypeForVehicle(model: string): (cls: TruckClass)
    ensures var m := ToLower(model);
            var b := Contains(m, "pickup") || Contains(m, "suv");
            var d := Contains(m, "camion") || Contains(m, "truck");
            var c := Contains(m, "van");
            && (cls == B <==> b)
            && (cls == D <==> !b && d)
            && (cls == C <==> !b && !d && c)
            && (cls == A <==> !b && !d && !c)
  {
    var modelLower := ToLower(model);
    assert Contains(modelLower, "minivan") ==> Contains(modelLower, "van") by {
      if Contains(modelLower, "minivan") {
        MinivanIsVan(modelLower);
      }
    }
    if Contains(modelLower, "pickup") || Contains(modelLower, "suv") then B
    else if Contains(modelLower, "camion") || Contains(modelLower, "truck") then D
    else if Contains(modelLower, "van") || Contains(modelLower, "minivan") then C
    else A
  }

  /** One row of the priority table: any of `keywords` selects `cls`. */
  datatype Rule = Rule(keywords: seq<string>, cls: TruckClass)

  /** The classifier's decisions as an ordered rule table. */
  const Rules: seq<Rule> := [
    Rule(["pickup", "suv"], B),
    Rule(["camion", "truck"], D),
    Rule(["van", "minivan"], C)
  ]

  predicate MentionsAny(s: string, keywords: seq<string>) {
    exists k :: 0 <= k < |keywords| && Contains(s, keywords[k])
  }

  /** The class of the first rule with a keyword in `s`, or `fallback`. */
  function FirstMatch(rules: seq<Rule>, s: string, fallback: TruckClass): (c: TruckClass)
    ensures c == fallback || exists j :: 0 <= j < |rules| && rules[j].cls == c
    decreases |rules|
  {
    if |rules| == 0 then fallback
    else if MentionsAny(s, rules[0].keywords) then rules[0].cls
    else FirstMatch(rules[1..], s, fallback)
  }

  /** The classifier is the rule table read top to bottom, with A as fallback. */
  lemma ClassifierIsRuleTable(model: string)
    ensures GetTruckTypeForVehicle(model) == FirstMatch(Rules, ToLower(model), A)
  {
    var s := ToLower(model);
    assert MentionsAny(s, ["pickup", "suv"]) <==> Contains(s, "pickup") || Contains(s, "suv") by {
      var ks := ["pickup", "suv"];
      assert ks[0] == "pickup" && ks[1] == "suv";
    }
    assert MentionsAny(s, ["camion", "truck"]) <==> Contains(s, "camion") || Contains(s, "truck") by {
      var ks := ["camion", "truck"];
      assert ks[0] == "camion" && ks[1] == "truck";
    }
    assert MentionsAny(s, ["van", "minivan"]) <==> Contains(s, "van") || Contains(s, "minivan") by {
      var ks := ["van", "minivan"];
      assert ks[0] == "van" && ks[1] == "minivan";
    }
    assert Rules[1..][1..][1..] == [];
  }

  /** Classification depends only on the lower-cased model. */
  lemma ClassifyIgnoresCase(s: string, t: string)
    requires |s| == |t|
    requires forall i :: 0 <= i < |s| ==> LowerChar(s[i]) == LowerChar(t[i])
    ensures GetTruckTypeForVehicle(s) == GetTruckTypeForVehicle(t)
  {
    ToLowerIgnoresCase(s, t);
  }

  /** Classifying an already lower-cased model changes nothing. */
  lemma ClassifyLowered(model: string)
    ensures GetTruckTypeForVehicle(ToLower(model)) == GetTruckTypeForVehicle(model)
  {
    ToLowerIdempotent(model);
  }

  /** "minivan" never decides anything: every model containing it contains "van". */
  lemma MinivanIsVan(s: string)
    requires Contains(s, "minivan")
    ensures Contains(s, "van")
  {
    assert "minivan" == "mini" + "van" + "";
    ContainsInfix(s, "mini", "van", "");
  }

  /** "pickup"/"suv" wins over "truck" and "van"; "truck"/"camion" wins over "van". */
  lemma KeywordPriority(model: string)
    ensures var m := ToLower(model);
            && (Contains(m, "pickup") || Contains(m, "suv") ==> GetTruckTypeForVehicle(model) == B)
            && (Contains(m, "camion") || Contains(m, "truck") ==> GetTruckTypeForVehicle(model) != C)
            && (Contains(m, "minivan") ==> GetTruckTypeForVehicle(model) != A)
  {
  }

  /** The class the classifier suggests always has a catalog entry, so pricing it never fails. */
  lemma SuggestedClassIsPriced(model: string, distance: real, requiresManeuver: bool,
                               tollCosts: real, requiresInvoice: bool)
    ensures var c := GetTruckTypeForVehicle(model);
            Pricing.CalculateTotalCost(distance, Key(c), requiresManeuver, tollCosts, requiresInvoice)
            == Wrappers.Success(JsNumber.Finite(Pricing.Cost(distance, c, requiresManeuver, tollCosts, requiresInvoice)))
  {
  }

  /** A pickup truck is classed B, not D. */
  lemma PickupTruckIsB()
    ensures GetTruckTypeForVehicle("Pickup Truck") == B
  {
    var head, tail := "Pickup", " Truck";
    assert head + tail == "Pickup Truck";
    ToLowerAppend(head, tail);
    LowerPickup();
    var m := ToLower(head + tail);
    assert m == "pickup" + ToLower(tail);
    assert StartsWith(m, "pickup");
    assert Contains(m, "pickup");
  }

  lemma LowerPickup()
    ensures ToLower("Pickup") == "pickup"
  {
    assert ToLower("up") == "u" + ToLower("p");
    assert ToLower("kup") == "k" + ToLower("up");
    assert ToLower("ckup") == "c" + ToLower("kup");
    assert ToLower("ickup") == "i" + ToLower("ckup");
  }
}

=== FILE: costdisplay.dfy ===
/**
  The arithmetic of the cost card: the "desglose" (breakdown) that re-splits
  an already computed total, and the estimated travel time. This is a second,
  display-only decomposition; it never feeds back into the price.
 */
module CostDisplay {
  import Pricing
  import opened Catalog

  /** The lines of the breakdown panel, before `toFixed(2)`. */
  datatype Breakdown = Breakdown(
    baseCost: real,        // total minus tolls
    serviceFee: real,      // "Cargo por servicio (10%)"
    tax: real,             // "IVA (16%)"
    coreService: real,     // "Servicio base"
    showTollLine: bool)    // whether the "Peajes" line is rendered

  const ServiceFeeRate: real := 10.0 / 100.0
  const IvaRate: real := 16.0 / 100.0

  /** The breakdown the card shows for `totalCost` and `totalTollCost`. */
  function Decompose(totalCost: real, totalTollCost: real): (b: Breakdown)
    ensures b.baseCost + totalTollCost == totalCost
    ensures b.serviceFee == b.baseCost / 10.0 && b.tax == b.baseCost * 16.0 / 100.0
    ensures b.coreService == b.baseCost * 74.0 / 100.0
    ensures b.coreService + b.serviceFee + b.tax + totalTollCost == totalCost
    ensures b.showTollLine <==> totalTollCost > 0.0
  {
    var baseCost := totalCost - totalTollCost;
    var serviceFee := baseCost * ServiceFeeRate;
    var tax := baseCost * IvaRate;
    Breakdown(baseCost, serviceFee, tax, baseCost - serviceFee - tax, totalTollCost > 0.0)
  }

  /** The amounts of the lines actually rendered above "Total". */
  function RenderedLines(totalCost: real, totalTollCost: real): (lines: seq<real>)
    ensures var base := totalCost - totalTollCost;
            lines == [base * 74.0 / 100.0, base / 10.0, base * 16.0 / 100.0]
                     + (if totalTollCost > 0.0 then [totalTollCost] else [])
  {
    var b := Decompose(totalCost, totalTollCost);
    [b.coreService, b.serviceFee, b.tax] + (if b.showTollLine then [totalTollCost] else [])
  }

  function Sum(xs: seq<real>): real
    decreases |xs|
  {
    if |xs| == 0 then 0.0 else xs[0] + Sum(xs[1..])
  }

  /** The rendered lines add up to the total exactly when the tolls are not negative. */
  lemma RenderedLinesSumToTotal(totalCost: real, totalTollCost: real)
    ensures Sum(RenderedLines(totalCost, totalTollCost)) == totalCost <==> totalTollCost >= 0.0
  {
    var lines := RenderedLines(totalCost, totalTollCost);
    assert Sum(lines) == lines[0] + lines[1] + lines[2] + Sum(lines[3..]) by {
      assert Sum(lines) == lines[0] + Sum(lines[1..]);
      assert lines[1..][0] == lines[1] && lines[1..][1..] == lines[2..];
      assert Sum(lines[1..]) == lines[1] + Sum(lines[2..]);
      assert lines[2..][0] == lines[2] && lines[2..][1..] == lines[3..];
      assert Sum(lines[2..]) == lines[2] + Sum(lines[3..]);
    }
    var b := Decompose(totalCost, totalTollCost);
    assert lines[..3] == [b.coreService, b.serviceFee, b.tax];
    assert lines[0] == b.coreService && lines[1] == b.serviceFee && lines[2] == b.tax;
    if |lines| == 4 {
      assert lines[3] == totalTollCost;
      assert lines[3..][1..] == [];
      assert Sum(lines[3..]) == lines[3] + Sum(lines[3..][1..]);
    } else {
      assert lines[3..] == [];
    }
  }

  /**
    For a price computed without invoice the card still shows a 16% IVA line on
    everything except tolls, although the engine charged no tax at all.
   */
  lemma IvaShownOnUntaxedPrice(distance: real, c: TruckClass, requiresManeuver: bool, tollCosts: real)
    ensures var q := Pricing.QuoteFor(distance, c, requiresManeuver, tollCosts, false);
            && q.tax == 0.0
            && Decompose(q.total, tollCosts).tax == (q.baseCost + q.maneuverCost) * 16.0 / 100.0
  {
  }

  /**
    With an invoice the two decompositions disagree: for 100 km in class B with a
    maneuver and 80 in tolls the engine taxes 692.80 but the card shows 790.848.
   */
  lemma DecompositionsDisagree()
    ensures Pricing.QuoteFor(100.0, B, true, 80.0, true).tax == 692.8
    ensures Decompose(Pricing.QuoteFor(100.0, B, true, 80.0, true).total, 80.0).tax == 790.848
  {
  }

  /**
    The headline amount: `toFixed(2)` of the total, or "0.00" when the total is
    falsy. The formatter `fixed2` stands for `Number.prototype.toFixed(2)`.
    Whenever the formatter prints zero as "0.00", the headline repeats the
    "Total" line of the breakdown, which formats the total unconditionally.
   */
  function Headline(totalCost: real, fixed2: real -> string): (text: string)
    ensures fixed2(0.0) == "0.00" ==> text == fixed2(totalCost)
  {
    if totalCost != 0.0 then fixed2(totalCost) else "0.00"
  }

  /** `Math.ceil` on reals. */
  function Ceil(x: real): (n: int)
    ensures (n - 1) as real < x <= n as real
  {
    -((-x).Floor)
  }

  /** "Est. Time": whole hours at 50 km/h, rounded up; 0 when there is no distance. */
  function EstimatedHours(totalDistance: real): (h: int)
    ensures totalDistance == 0.0 ==> h == 0
    ensures totalDistance != 0.0 ==> (h - 1) as real * 50.0 < totalDistance <= h as real * 50.0
  {
    if totalDistance != 0.0 then Ceil(totalDistance / 50.0) else 0
  }

  /** Any positive distance takes at least an hour, and a longer one never less time. */
  lemma EstimatedHoursMonotone(d1: real, d2: real)
    requires 0.0 < d1 <= d2
    ensures 1 <= EstimatedHours(d1) <= EstimatedHours(d2)
  {
  }
}

=== FILE: jsnumber.dfy ===
/**
  The part of JavaScript's `number` the pricing code can produce: an exact
  finite value, or `NaN`. Rounding and infinities are not modelled.
 */
module JsNumber {

  datatype Number = Finite(value: real) | NaN {

    /** JavaScript `+`: `NaN` is absorbing. */
    function Add(other: Number): (r: Number)
      ensures r.Finite? <==> Finite? && other.Finite?
      ensures r.Finite? ==> r.value - other.value == value
    {
      if Finite? && other.Finite? then Finite(value + other.value) else NaN
    }

    /** JavaScript binary `-`: `NaN` is absorbing. */
    function Sub(other: Number): (r: Number)
      ensures r.Finite? <==> Finite? && other.Finite?
      ensures r.Finite? ==> r.value + other.value == value
    {
      if Finite? && other.Finite? then Finite(value - other.value) else NaN
    }
  }
}

=== FILE: notifications.dfy ===
/**
  The per-key cooldown that keeps the same kind of toast from being shown
  twice within three seconds. The module-global timestamp object becomes an
  explicit map, and `Date.now()` an explicit `now` argument (milliseconds).
 */
module Notifications {

  const NotificationCooldown: int := 3000

  /** Time each notification key was last shown. */
  type Timestamps = map<string, int>

  /** `notificationTimestamps[type] || 0`: a key never shown counts as shown at time 0. */
  function LastShown(stamps: Timestamps, key: string): int {
    if key in stamps then stamps[key] else 0
  }

  /** Outcome of one `shouldShowNotification` call. */
  datatype Decision = Decision(show: bool, stamps: Timestamps)

  function ShouldShowNotification(stamps: Timestamps, key: string, now: int): (r: Decision)
    ensures r.show <==> now - LastShown(stamps, key) > NotificationCooldown
    ensures r.show ==> key in r.stamps && r.stamps[key] == now
    ensures r.show ==> r.stamps.Keys == stamps.Keys + {key}
    ensures !r.show ==> r.stamps == stamps
    ensures forall k :: k in stamps && k != key ==> k in r.stamps && r.stamps[k] == stamps[k]
    ensures forall k :: k in r.stamps && k != key ==> k in stamps
  {
    if now - LastShown(stamps, key) > NotificationCooldown then
      Decision(true, stamps[key := now])
    else
      Decision(false, stamps)
  }

  /** A key that was just shown stays quiet for the next 3000 ms, boundary included. */
  lemma SuppressedWithinCooldown(stamps: Timestamps, key: string, t1: int, t2: int)
    requires ShouldShowNotification(stamps, key, t1).show
    requires t2 - t1 <= NotificationCooldown
    ensures !ShouldShowNotification(ShouldShowNotification(stamps, key, t1).stamps, key, t2).show
  {
  }

  /**
    A suppressed call does not restart the cooldown, so a second call soon after
    a suppressed one can still be shown: last shown at 0, calls at 3000 and 3001.
   */
  lemma SuppressedCallDoesNotRestartCooldown()
    ensures var first := ShouldShowNotification(map[], "route", 3000);
            && !first.show
            && ShouldShowNotification(first.stamps, "route", 3001).show
  {
  }

  /** The four notification kinds that go through the cooldown. */
  datatype LocationKind = Pickup | Drop
  datatype Notification =
    | LocationSet(kind: LocationKind)
    | RouteCalculated
    | PaymentResult(success: bool)

  /** The cooldown key each `show*` function passes. */
  function Key(n: Notification): (key: string)
    ensures key == "payment" <==> n.PaymentResult?
    ensures |key| > 9 && key[..9] == "location_" <==> n.LocationSet?
  {
    match n
    case LocationSet(Pickup) => "location_pickup"
    case LocationSet(Drop) => "location_drop"
    case RouteCalculated => "route"
    case PaymentResult(_) => "payment"
  }

  /** Two notifications share a cooldown exactly when they are equal or both payment results. */
  lemma SharedKeys(n1: Notification, n2: Notification)
    ensures Key(n1) == Key(n2) <==> n1 == n2 || (n1.PaymentResult? && n2.PaymentResult?)
  {
    assert "location_pickup"[9] != "location_drop"[9];
    assert "route"[0] != "payment"[0];
    assert |"location_pickup"| != |"route"| && |"location_pickup"| != |"payment"|;
    assert |"location_drop"| != |"route"| && |"location_drop"| != |"payment"|;
  }

  /** Whether a `show*` call displays its toast, and the cooldown state after it. */
  function Show(stamps: Timestamps, n: Notification, now: int): (r: Decision)
    ensures r.show <==> now - LastShown(stamps, Key(n)) > NotificationCooldown
    ensures forall k :: k in stamps && k != Key(n) ==> k in r.stamps && r.stamps[k] == stamps[k]
  {
    ShouldShowNotification(stamps, Key(n), now)
  }

  /** A payment failure within 3000 ms of a shown payment success is not shown. */
  lemma FailureSuppressedAfterSuccess(stamps: Timestamps, t1: int, t2: int)
    requires Show(stamps, PaymentResult(true), t1).show
    requires t2 - t1 <= NotificationCooldown
    ensures !Show(Show(stamps, PaymentResult(true), t1).stamps, PaymentResult(false), t2).show
  {
  }

  /** Pickup and drop-off confirmations never suppress each other. */
  lemma PickupDoesNotSilenceDrop(stamps: Timestamps, t1: int, t2: int)
    ensures Show(Show(stamps, LocationSet(Pickup), t1).stamps, LocationSet(Drop), t2).show
        == Show(stamps, LocationSet(Drop), t2).show
  {
    SharedKeys(LocationSet(Pickup), LocationSet(Drop));
  }

  /** One `shouldShowNotification(key)` call at time `now`. */
  datatype Call = Call(key: string, now: int)

  /** The timestamp map after the given calls, starting from `stamps`. */
  function Replay(stamps: Timestamps, calls: seq<Call>): Timestamps
    decreases |calls|
  {
    if |calls| == 0 then stamps
    else
      var last := calls[|calls| - 1];
      ShouldShowNotification(Replay(stamps, calls[..|calls| - 1]), last.key, last.now).stamps
  }

  /** Whether call `j` of the sequence was shown. */
  predicate ShownAt(stamps: Timestamps, calls: seq<Call>, j: int)
    requires 0 <= j < |calls|
  {
    ShouldShowNotification(Replay(stamps, calls[..j]), calls[j].key, calls[j].now).show
  }

  /** After a prefix, every shown call's key carries a timestamp no earlier than that call. */
  lemma {:induction false} ReplayRemembersShown(stamps: Timestamps, calls: seq<Call>, n: nat, i: nat)
    requires i < n <= |calls|
    requires ShownAt(stamps, calls, i)
    ensures calls[i].key in Replay(stamps, calls[..n])
    ensures Replay(stamps, calls[..n])[calls[i].key] >= calls[i].now
    decreases n
  {
    var prefix := calls[..n];
    assert prefix[..n - 1] == calls[..n - 1];
    if i == n - 1 {
      assert prefix[n - 1] == calls[i];
    } else {
      ReplayRemembersShown(stamps, calls, n - 1, i);
      var before := Replay(stamps, calls[..n - 1]);
      var call := calls[n - 1];
      assert prefix[n - 1] == call;
      if call.key == calls[i].key && ShouldShowNotification(before, call.key, call.now).show {
        assert call.now - before[call.key] > NotificationCooldown;
      }
    }
  }

  /** Any two shown calls for the same key are more than 3000 ms apart. */
  lemma ShownCallsAreSpaced(stamps: Timestamps, calls: seq<Call>, i: nat, j: nat)
    requires i < j < |calls|
    requires calls[i].key == calls[j].key
    requires ShownAt(stamps, calls, i) && ShownAt(stamps, calls, j)
    ensures calls[j].now - calls[i].now > NotificationCooldown
  {
    ReplayRemembersShown(stamps, calls, j, i);
  }
}

=== FILE: pricing.dfy ===
/**
  `calculateTotalCost`: the price of a tow from distance, truck class,
  maneuver flag, toll total and invoice flag.
 */
module Pricing {
  import opened Wrappers
  import opened JsNumber
  import opened Catalog

  /**
    Names every plain object inherits from `Object.prototype`. Indexing the
    catalog object with one of them yields that inherited member instead of
    `undefined`, so reading `perKm` from it does not throw but gives `undefined`.
   */
  const InheritedNames: set<string> := {
    "constructor", "hasOwnProperty", "isPrototypeOf", "propertyIsEnumerable",
    "toLocaleString", "toString", "valueOf", "__proto__",
    "__defineGetter__", "__defineSetter__", "__lookupGetter__", "__lookupSetter__"
  }

  /** What `towTruckTypes[truckType || 'A']` evaluates to. */
  datatype TruckLookup =
    | Found(cls: TruckClass)   // one of the four catalog records
    | Inherited                // an Object.prototype member: its `perKm` is undefined
    | Undefined                // no such property: reading `perKm` throws

  /** Reading `perKm` of `undefined` throws a TypeError. */
  datatype PricingError = TypeError(truckType: string)

  /** The 16% tax rate applied when an invoice is requested. */
  const TaxRate: real := 16.0 / 100.0

  function ResolveTruck(truckType: string): (r: TruckLookup)
    ensures r.Found? <==> truckType == "" || truckType in TowTruckTypes
    ensures truckType == "" ==> r == Found(A)
    ensures r.Found? && truckType != "" ==> Key(r.cls) == truckType
    ensures r.Inherited? <==> truckType in InheritedNames
  {
    var key := if truckType == "" then "A" else truckType;
    match Lookup(key)
    case Some(c) => Found(c)
    case None => if key in InheritedNames then Inherited else Undefined
  }

  /** The intermediate figures of one pricing computation. */
  datatype Quote = Quote(
    baseCost: real,
    maneuverCost: real,
    subtotal: real,
    tax: real,
    total: real)

  /** The computation of `calculateTotalCost` once the truck record is known. */
  function QuoteFor(distance: real, c: TruckClass, requiresManeuver: bool,
                    tollCosts: real, requiresInvoice: bool): (q: Quote)
    ensures q.total == q.subtotal + q.tax
    ensures q.subtotal == q.baseCost + q.maneuverCost + tollCosts
    ensures q.maneuverCost > 0.0 <==> requiresManeuver
    ensures q.tax == 0.0 <==> !requiresInvoice || q.subtotal == 0.0
    ensures distance >= 0.0 && tollCosts >= 0.0 ==>
              q.total >= q.subtotal >= q.baseCost >= 0.0
    ensures distance >= 0.0 && tollCosts >= 0.0 ==>
              (q.total == q.subtotal <==> !requiresInvoice || q.subtotal == 0.0)
  {
    var truck := Entry(c);
    PositiveRates(c);
    var baseCost := distance * truck.perKm;
    var maneuverCost := if requiresManeuver then truck.maneuverCharge else 0.0;
    var subtotal := baseCost + maneuverCost + tollCosts;
    var tax := if requiresInvoice then subtotal * TaxRate else 0.0;
    Quote(baseCost, maneuverCost, subtotal, tax, subtotal + tax)
  }

  /** The total price for a known class. */
  function Cost(distance: real, c: TruckClass, requiresManeuver: bool,
                tollCosts: real, requiresInvoice: bool): real
  {
    QuoteFor(distance, c, requiresManeuver, tollCosts, requiresInvoice).total
  }

  /**
    `calculateTotalCost(distance, truckType, requiresManeuver, tollCosts = 0,
    requiresInvoice = false)`. A TypeError is the exception the lookup of an
    unknown class raises; `NaN` is what an inherited property name yields.
   */
  function CalculateTotalCost(distance: real, truckType: string, requiresManeuver: bool,
                              tollCosts: real := 0.0, requiresInvoice: bool := false)
    : (r: Result<Number, PricingError>)
    ensures r.Failure? <==> ResolveTruck(truckType).Undefined?
    ensures r.Failure? ==> r.error == TypeError(truckType)
    ensures r == Success(NaN) <==> ResolveTruck(truckType).Inherited?
    ensures ResolveTruck(truckType).Found? ==>
              var truck := Entry(ResolveTruck(truckType).cls);
              r == Success(Finite(
                (distance * truck.perKm
                 + (if requiresManeuver then truck.maneuverCharge else 0.0)
                 + tollCosts)
                * (if requiresInvoice then 116.0 / 100.0 else 1.0)))
  {
    match ResolveTruck(truckType)
    case Found(c) => Success(Finite(Cost(distance, c, requiresManeuver, tollCosts, requiresInvoice)))
    case Inherited => Success(NaN)
    case Undefined => Failure(TypeError(truckType))
  }

  /** Leaving out the toll and invoice arguments prices with no tolls and no invoice. */
  lemma DefaultArguments(distance: real, truckType: string, requiresManeuver: bool)
    ensures CalculateTotalCost(distance, truckType, requiresManeuver)
         == CalculateTotalCost(distance, truckType, requiresManeuver, 0.0, false)
  {
  }

  /** An empty truck type is priced as class A. */
  lemma EmptyTruckTypeIsA(distance: real, requiresManeuver: bool, tollCosts: real, requiresInvoice: bool)
    ensures CalculateTotalCost(distance, "", requiresManeuver, tollCosts, requiresInvoice)
         == CalculateTotalCost(distance, "A", requiresManeuver, tollCosts, requiresInvoice)
         == Success(Finite(Cost(distance, A, requiresManeuver, tollCosts, requiresInvoice)))
  {
  }

  /** Exactly the empty key and the four catalog keys give a finite price. */
  lemma FinitePriceIffKnownKey(distance: real, truckType: string, requiresManeuver: bool,
                               tollCosts: real, requiresInvoice: bool)
    ensures (var r := CalculateTotalCost(distance, truckType, requiresManeuver, tollCosts, requiresInvoice);
             r.Success? && r.value.Finite?)
        <==> truckType in {"", "A", "B", "C", "D"}
  {
  }

  /** Any other key that is not an inherited name makes the call throw. */
  lemma UnknownKeyThrows(distance: real, truckType: string, requiresManeuver: bool,
                         tollCosts: real, requiresInvoice: bool)
    requires truckType !in {"", "A", "B", "C", "D"}
    requires truckType !in InheritedNames
    ensures CalculateTotalCost(distance, truckType, requiresManeuver, tollCosts, requiresInvoice)
         == Failure(TypeError(truckType))
  {
  }

  /** With an invoice the total is the no-invoice total plus 16%. */
  lemma InvoiceAddsTax(distance: real, c: TruckClass, requiresManeuver: bool, tollCosts: real)
    ensures Cost(distance, c, requiresManeuver, tollCosts, true)
         == Cost(distance, c, requiresManeuver, tollCosts, false) * (116.0 / 100.0)
  {
  }

  /** Tolls are added at face value without an invoice and taxed with one. */
  lemma TollsPassThrough(distance: real, c: TruckClass, requiresManeuver: bool,
                         tollCosts: real, requiresInvoice: bool)
    ensures Cost(distance, c, requiresManeuver, tollCosts, requiresInvoice)
         == Cost(distance, c, requiresManeuver, 0.0, requiresInvoice)
            + tollCosts * (if requiresInvoice then 116.0 / 100.0 else 1.0)
  {
  }

  /** The maneuver flag adds exactly the class surcharge (taxed under an invoice). */
  lemma ManeuverSurcharge(distance: real, c: TruckClass, tollCosts: real, requiresInvoice: bool)
    ensures Cost(distance, c, true, tollCosts, requiresInvoice)
         == Cost(distance, c, false, tollCosts, requiresInvoice)
            + Entry(c).maneuverCharge * (if requiresInvoice then 116.0 / 100.0 else 1.0)
  {
  }

  /** The price strictly increases with distance, every rate being positive. */
  lemma CostIncreasesWithDistance(d1: real, d2: real, c: TruckClass, requiresManeuver: bool,
                                  tollCosts: real, requiresInvoice: bool)
    requires d1 < d2
    ensures Cost(d1, c, requiresManeuver, tollCosts, requiresInvoice)
          < Cost(d2, c, requiresManeuver, tollCosts, requiresInvoice)
  {
  }

  /** For a non-negative distance a larger class never costs less. */
  lemma CostOrderedByClass(distance: real, c1: TruckClass, c2: TruckClass, requiresManeuver: bool,
                           tollCosts: real, requiresInvoice: bool)
    requires distance >= 0.0
    requires Rank(c1) <= Rank(c2)
    ensures Cost(distance, c1, requiresManeuver, tollCosts, requiresInvoice)
         <= Cost(distance, c2, requiresManeuver, tollCosts, requiresInvoice)
  {
  }

  /** 100 km in class B with a maneuver and 80 in tolls, no invoice: 4330. */
  lemma ExampleWithoutInvoice()
    ensures QuoteFor(100.0, B, true, 80.0, false)
         == Quote(3500.0, 750.0, 4330.0, 0.0, 4330.0)
    ensures CalculateTotalCost(100.0, "B", true, 80.0, false) == Success(Finite(4330.0))
  {
  }

  /** The same tow with an invoice: 692.80 of tax, 5022.80 in all. */
  lemma ExampleWithInvoice()
    ensures QuoteFor(100.0, B, true, 80.0, true)
         == Quote(3500.0, 750.0, 4330.0, 692.8, 5022.8)
    ensures CalculateTotalCost(100.0, "B", true, 80.0, true) == Success(Finite(5022.8))
  {
  }
}

=== FILE: serviceexport.dfy ===
/**
  The service-request export: the cost figures `generateServiceInfo` derives,
  its fixed 32-row layout, and the CSV / plain-text encodings written by
  `downloadServiceInfo`. Geocoding, routing, the clock and `toFixed` are the
  answers of outside services and come in through `Environment`.
 */
module ServiceExport {
  import opened Wrappers
  import opened JsNumber
  import opened Text
  import opened Catalog
  import Pricing

  datatype Location = Location(lat: real, lng: real)

  /** The form fields the export reads. */
  datatype FormData = FormData(
    username: string,
    vehicleMake: string,
    vehicleModel: string,
    vehicleYear: string,
    vehicleColor: string,
    issueDescription: string,
    truckType: string,
    tollFees: real)

  /** Answers of the collaborators for one export. */
  datatype Environment = Environment(
    currentDate: string,              // `new Date().toLocaleString()`
    addressOf: Location -> string,    // `getAddressFromCoordinates`
    routeDistance: Option<real>,      // `getRouteDetails(...).distance`; None when it throws
    fixed2: real -> string,           // `toFixed(2)`
    fixed6: real -> string)           // `toFixed(6)`

  /** `totalDistance` and `totalCost` as they stand after the guarded block. */
  datatype CostFigures = CostFigures(totalDistance: real, totalCost: Number)

  /**
    Both start at 0. Only with both locations and a route does the distance
    change; the cost is the engine price without tolls or invoice plus the toll
    fees, and stays 0 when the route or the pricing throws (the error is caught).
   */
  function CostFiguresOf(form: FormData, pickup: Option<Location>, drop: Option<Location>,
                         requiresManeuver: bool, routeDistance: Option<real>): (f: CostFigures)
    ensures pickup.None? || drop.None? || routeDistance.None? ==> f == CostFigures(0.0, Finite(0.0))
    ensures pickup.Some? && drop.Some? && routeDistance.Some? ==>
              && f.totalDistance == routeDistance.value
              && (Pricing.ResolveTruck(form.truckType).Undefined? ==> f.totalCost == Finite(0.0))
              && (Pricing.ResolveTruck(form.truckType).Inherited? ==> f.totalCost == NaN)
              && (Pricing.ResolveTruck(form.truckType).Found? ==>
                    f.totalCost == Finite(Pricing.Cost(routeDistance.value, Pricing.ResolveTruck(form.truckType).cls,
                                                       requiresManeuver, 0.0, false) + form.tollFees))
  {
    if pickup.Some? && drop.Some? then
      match routeDistance
      case None => CostFigures(0.0, Finite(0.0))
      case Some(d) =>
        match Pricing.CalculateTotalCost(d, form.truckType, requiresManeuver)
        case Failure(_) => CostFigures(d, Finite(0.0))
        case Success(price) => CostFigures(d, price.Add(Finite(form.tollFees)))
    else
      CostFigures(0.0, Finite(0.0))
  }

  /** The "Service Cost" amount: total cost minus toll fees. */
  function ServiceCost(form: FormData, f: CostFigures): (r: Number)
    ensures r.Finite? <==> f.totalCost.Finite?
    ensures r.Finite? ==> r.value + form.tollFees == f.totalCost.value
  {
    f.totalCost.Sub(Finite(form.tollFees))
  }

  /** On a priced route "Service Cost" is the engine price without tolls. */
  lemma ServiceCostIsEngineCostWithoutTolls(form: FormData, pickup: Location, drop: Location,
                                            requiresManeuver: bool, distance: real, c: TruckClass)
    requires Pricing.ResolveTruck(form.truckType) == Pricing.Found(c)
    ensures ServiceCost(form, CostFiguresOf(form, Some(pickup), Some(drop), requiresManeuver, Some(distance)))
         == Finite(Pricing.Cost(distance, c, requiresManeuver, 0.0, false))
  {
    Pricing.TollsPassThrough(distance, c, requiresManeuver, form.tollFees, false);
  }

  /**
    Adding the tolls after pricing gives the engine's own no-invoice price with
    the tolls passed in: the export never taxes anything, tolls included.
   */
  lemma TollsNeverTaxed(form: FormData, pickup: Location, drop: Location,
                        requiresManeuver: bool, distance: real, c: TruckClass)
    requires Pricing.ResolveTruck(form.truckType) == Pricing.Found(c)
    ensures CostFiguresOf(form, Some(pickup), Some(drop), requiresManeuver, Some(distance)).totalCost
         == Finite(Pricing.Cost(distance, c, requiresManeuver, form.tollFees, false))
  {
    Pricing.TollsPassThrough(distance, c, requiresManeuver, form.tollFees, false);
  }

  /** Without a priced route the export lists a negative service cost whenever there are tolls. */
  lemma NegativeServiceCostWithoutRoute(form: FormData, pickup: Option<Location>, drop: Option<Location>,
                                        requiresManeuver: bool, routeDistance: Option<real>)
    requires pickup.None? || drop.None? || routeDistance.None?
    requires form.tollFees > 0.0
    ensures ServiceCost(form, CostFiguresOf(form, pickup, drop, requiresManeuver, routeDistance)).Finite?
    ensures ServiceCost(form, CostFiguresOf(form, pickup, drop, requiresManeuver, routeDistance)).value < 0.0
  {
  }

  /** A number as the template literal prints it. */
  function Show(n: Number, fixed2: real -> string): string {
    match n
    case Finite(v) => fixed2(v)
    case NaN => "NaN"
  }

  /**
    `${loc?.lat.toFixed(6)}, ${loc?.lng.toFixed(6)}`: optional chaining prints
    "undefined" for a missing location. Either way the text holds a comma.
   */
  function Coordinates(loc: Option<Location>, fixed6: real -> string): (text: string)
    ensures ',' in text
    ensures loc.Some? ==> StartsWith(text, fixed6(loc.value.lat) + ", ")
  {
    match loc
    case None =>
      var text := "undefined, undefined";
      assert text[9] == ',';
      text
    case Some(l) =>
      var text := fixed6(l.lat) + ", " + fixed6(l.lng);
      assert text[|fixed6(l.lat)|] == ',';
      assert text[..|fixed6(l.lat) + ", "|] == fixed6(l.lat) + ", ";
      text
  }

  /** The geocoded address, or "Not specified" for a missing location. */
  function Address(loc: Option<Location>, addressOf: Location -> string): (text: string)
    ensures loc.None? ==> text == "Not specified"
    ensures loc.Some? ==> text == addressOf(loc.value)
  {
    match loc
    case None => "Not specified"
    case Some(l) => addressOf(l)
  }

  /** The fixed text each row begins with, section by section. */
  const HeaderLayout: seq<string> :=
    ["SERVICE REQUEST INFORMATION", "Generated on: ", "", "USER INFORMATION", "Name: ", ""]
  const LocationLayout: seq<string> :=
    ["LOCATION DETAILS", "Pickup Location", "Complete Address: ", "Coordinates: ", "",
     "Drop-off Location", "Complete Address: ", "Coordinates: ", ""]
  const VehicleLayout: seq<string> :=
    ["VEHICLE DETAILS", "Make: ", "Model: ", "Year: ", "Color: ", ""]
  const ServiceLayout: seq<string> :=
    ["SERVICE DETAILS", "Service Type: ", "Tow Truck Type: ", "Requires Special Maneuver: ",
     "Issue Description: ", ""]
  const CostLayout: seq<string> :=
    ["COST DETAILS", "Total Distance: ", "Toll Fees: $", "Service Cost: $", "Total Cost: $"]

  const Layout: seq<string> :=
    HeaderLayout + LocationLayout + VehicleLayout + ServiceLayout + CostLayout

  lemma StartsWithConcat(a: string, b: string)
    ensures StartsWith(a + b, a)
  {
    assert (a + b)[..|a|] == a;
  }

  /** Each label followed by its value. */
  function Attach(labels: seq<string>, values: seq<string>): (rows: seq<string>)
    requires |labels| == |values|
    ensures |rows| == |labels|
    ensures forall i :: 0 <= i < |rows| ==> rows[i] == labels[i] + values[i]
    ensures forall i :: 0 <= i < |rows| ==> StartsWith(rows[i], labels[i])
  {
    var rows := seq(|labels|, i requires 0 <= i < |labels| => labels[i] + values[i]);
    forall i | 0 <= i < |rows|
      ensures StartsWith(rows[i], labels[i])
    {
      StartsWithConcat(labels[i], values[i]);
    }
    rows
  }

  function HeaderValues(form: FormData, env: Environment): (values: seq<string>)
    ensures |values| == |HeaderLayout|
  {
    ["", env.currentDate, "", "", form.username, ""]
  }

  function LocationValues(pickup: Option<Location>, drop: Option<Location>, env: Environment)
    : (values: seq<string>)
    ensures |values| == |LocationLayout|
  {
    ["", "", Address(pickup, env.addressOf), Coordinates(pickup, env.fixed6), "",
     "", Address(drop, env.addressOf), Coordinates(drop, env.fixed6), ""]
  }

  function VehicleValues(form: FormData): (values: seq<string>)
    ensures |values| == |VehicleLayout|
  {
    ["", form.vehicleMake, form.vehicleModel, form.vehicleYear, form.vehicleColor, ""]
  }

  function ServiceValues(form: FormData, serviceType: string, requiresManeuver: bool)
    : (values: seq<string>)
    ensures |values| == |ServiceLayout|
  {
    ["", serviceType, form.truckType, if requiresManeuver then "Yes" else "No",
     form.issueDescription, ""]
  }

  function CostValues(form: FormData, f: CostFigures, fixed2: real -> string): (values: seq<string>)
    ensures |values| == |CostLayout|
  {
    ["", fixed2(f.totalDistance) + " km", fixed2(form.tollFees),
     Show(ServiceCost(form, f), fixed2), Show(f.totalCost, fixed2)]
  }

  /** The value after each label, in layout order. */
  function Values(form: FormData, pickup: Option<Location>, drop: Option<Location>,
                  serviceType: string, requiresManeuver: bool, env: Environment): (values: seq<string>)
    ensures |values| == |Layout|
  {
    var f := CostFiguresOf(form, pickup, drop, requiresManeuver, env.routeDistance);
    HeaderValues(form, env) + LocationValues(pickup, drop, env) + VehicleValues(form)
    + ServiceValues(form, serviceType, requiresManeuver) + CostValues(form, f, env.fixed2)
  }

  /** `generateServiceInfo`: the rows of the export, each its label followed by its value. */
  function GenerateServiceInfo(form: FormData, pickup: Option<Location>, drop: Option<Location>,
                               serviceType: string, requiresManeuver: bool, env: Environment)
    : (rows: seq<string>)
    ensures |rows| == |Layout| == 32
    ensures forall i :: 0 <= i < |rows| ==> StartsWith(rows[i], Layout[i])
  {
    Attach(Layout, Values(form, pickup, drop, serviceType, requiresManeuver, env))
  }

  /** The section titles and the blank separator lines have no value. */
  lemma BlankValues(form: FormData, pickup: Option<Location>, drop: Option<Location>,
                    serviceType: string, requiresManeuver: bool, env: Environment)
    ensures var values := Values(form, pickup, drop, serviceType, requiresManeuver, env);
            && values[0] == values[2] == values[3] == values[5] == ""
            && values[6] == values[7] == values[10] == values[11] == values[14] == ""
            && values[15] == values[20] == values[21] == values[26] == values[27] == ""
  {
    var f := CostFiguresOf(form, pickup, drop, requiresManeuver, env.routeDistance);
    var front := HeaderValues(form, env) + LocationValues(pickup, drop, env);
    var middle := front + VehicleValues(form) + ServiceValues(form, serviceType, requiresManeuver);
    assert |front| == 15 && |middle| == 27;
  }

  /** The section titles and the blank separator lines are exactly their fixed text. */
  lemma FixedRows(form: FormData, pickup: Option<Location>, drop: Option<Location>,
                  serviceType: string, requiresManeuver: bool, env: Environment)
    ensures var rows := GenerateServiceInfo(form, pickup, drop, serviceType, requiresManeuver, env);
            && rows[0] == "SERVICE REQUEST INFORMATION" && rows[3] == "USER INFORMATION"
            && rows[6] == "LOCATION DETAILS" && rows[7] == "Pickup Location"
            && rows[11] == "Drop-off Location" && rows[15] == "VEHICLE DETAILS"
            && rows[21] == "SERVICE DETAILS" && rows[27] == "COST DETAILS"
            && rows[2] == rows[5] == rows[10] == rows[14] == rows[20] == rows[26] == ""
  {
    var values := Values(form, pickup, drop, serviceType, requiresManeuver, env);
    BlankValues(form, pickup, drop, serviceType, requiresManeuver, env);
    FixedLabels();
    var rows := Attach(Layout, values);
    assert rows[0] == Layout[0] && rows[2] == Layout[2] && rows[3] == Layout[3] && rows[5] == Layout[5];
    assert rows[6] == Layout[6] && rows[7] == Layout[7] && rows[10] == Layout[10];
    assert rows[11] == Layout[11] && rows[14] == Layout[14] && rows[15] == Layout[15];
    assert rows[20] == Layout[20] && rows[21] == Layout[21];
    assert rows[26] == Layout[26] && rows[27] == Layout[27];
  }

  lemma FixedLabels()
    ensures && Layout[0] == "SERVICE REQUEST INFORMATION" && Layout[3] == "USER INFORMATION"
            && Layout[6] == "LOCATION DETAILS" && Layout[7] == "Pickup Location"
            && Layout[11] == "Drop-off Location" && Layout[15] == "VEHICLE DETAILS"
            && Layout[21] == "SERVICE DETAILS" && Layout[27] == "COST DETAILS"
            && Layout[2] == Layout[5] == Layout[10] == Layout[14] == Layout[20] == Layout[26] == ""
  {
  }

  /** The values that follow the labels of the header, location, vehicle and service rows. */
  lemma FilledValues(form: FormData, pickup: Option<Location>, drop: Option<Location>,
                     serviceType: string, requiresManeuver: bool, env: Environment)
    ensures var values := Values(form, pickup, drop, serviceType, requiresManeuver, env);
            && values[1] == env.currentDate && values[4] == form.username
            && values[8] == Address(pickup, env.addressOf) && values[9] == Coordinates(pickup, env.fixed6)
            && values[12] == Address(drop, env.addressOf) && values[13] == Coordinates(drop, env.fixed6)
            && values[16] == form.vehicleMake && values[17] == form.vehicleModel
            && values[18] == form.vehicleYear && values[19] == form.vehicleColor
            && values[22] == serviceType && values[23] == form.truckType
            && values[24] == (if requiresManeuver then "Yes" else "No") && values[25] == form.issueDescription
  {
    var f := CostFiguresOf(form, pickup, drop, requiresManeuver, env.routeDistance);
    var front := HeaderValues(form, env) + LocationValues(pickup, drop, env);
    var middle := front + VehicleValues(form) + ServiceValues(form, serviceType, requiresManeuver);
    assert |front| == 15 && |middle| == 27;
  }

  lemma ValueLabels()
    ensures && Layout[1] == "Generated on: " && Layout[4] == "Name: "
            && Layout[8] == Layout[12] == "Complete Address: " && Layout[9] == Layout[13] == "Coordinates: "
            && Layout[16] == "Make: " && Layout[17] == "Model: " && Layout[18] == "Year: "
            && Layout[19] == "Color: " && Layout[22] == "Service Type: " && Layout[23] == "Tow Truck Type: "
            && Layout[24] == "Requires Special Maneuver: " && Layout[25] == "Issue Description: "
  {
  }

  /** Every labelled row carries the field its label names, in the source's order. */
  lemma ValueRows(form: FormData, pickup: Option<Location>, drop: Option<Location>,
                  serviceType: string, requiresManeuver: bool, env: Environment)
    ensures var rows := GenerateServiceInfo(form, pickup, drop, serviceType, requiresManeuver, env);
            && rows[1] == "Generated on: " + env.currentDate
            && rows[4] == "Name: " + form.username
            && rows[8] == "Complete Address: " + Address(pickup, env.addressOf)
            && rows[9] == "Coordinates: " + Coordinates(pickup, env.fixed6)
            && rows[12] == "Complete Address: " + Address(drop, env.addressOf)
            && rows[13] == "Coordinates: " + Coordinates(drop, env.fixed6)
            && rows[16] == "Make: " + form.vehicleMake && rows[17] == "Model: " + form.vehicleModel
            && rows[18] == "Year: " + form.vehicleYear && rows[19] == "Color: " + form.vehicleColor
            && rows[22] == "Service Type: " + serviceType
            && rows[23] == "Tow Truck Type: " + form.truckType
            && rows[24] == "Requires Special Maneuver: " + (if requiresManeuver then "Yes" else "No")
            && rows[25] == "Issue Description: " + form.issueDescription
  {
    var values := Values(form, pickup, drop, serviceType, requiresManeuver, env);
    FilledValues(form, pickup, drop, serviceType, requiresManeuver, env);
    ValueLabels();
    var rows := Attach(Layout, values);
    assert rows[1] == Layout[1] + values[1] && rows[4] == Layout[4] + values[4];
    assert rows[8] == Layout[8] + values[8] && rows[9] == Layout[9] + values[9];
    assert rows[12] == Layout[12] + values[12] && rows[13] == Layout[13] + values[13];
    assert rows[16] == Layout[16] + values[16] && rows[17] == Layout[17] + values[17];
    assert rows[18] == Layout[18] + values[18] && rows[19] == Layout[19] + values[19];
    assert rows[22] == Layout[22] + values[22] && rows[23] == Layout[23] + values[23];
    assert rows[24] == Layout[24] + values[24] && rows[25] == Layout[25] + values[25];
  }

  /** A missing location is exported as "Not specified" with `undefined` coordinates. */
  lemma MissingLocationRows(form: FormData, pickup: Option<Location>, drop: Option<Location>,
                            serviceType: string, requiresManeuver: bool, env: Environment)
    ensures var rows := GenerateServiceInfo(form, pickup, drop, serviceType, requiresManeuver, env);
            && (pickup.None? ==> rows[8] == "Complete Address: Not specified"
                                 && rows[9] == "Coordinates: undefined, undefined")
            && (drop.None? ==> rows[12] == "Complete Address: Not specified"
                               && rows[13] == "Coordinates: undefined, undefined")
  {
    ValueRows(form, pickup, drop, serviceType, requiresManeuver, env);
    MissingLocationText();
    if pickup.None? {
      assert Address(pickup, env.addressOf) == "Not specified";
      assert Coordinates(pickup, env.fixed6) == "undefined, undefined";
    }
    if drop.None? {
      assert Address(drop, env.addressOf) == "Not specified";
      assert Coordinates(drop, env.fixed6) == "undefined, undefined";
    }
  }

  lemma MissingLocationText()
    ensures "Complete Address: " + "Not specified" == "Complete Address: Not specified"
    ensures "Coordinates: " + "undefined, undefined" == "Coordinates: undefined, undefined"
  {
  }

  /**
    A truck type naming an inherited `Object.prototype` member prices to NaN, so
    on a route both cost rows print "$NaN".
   */
  lemma InheritedKeyRows(form: FormData, pickup: Location, drop: Location, serviceType: string,
                         requiresManeuver: bool, env: Environment)
    requires env.routeDistance.Some?
    requires Pricing.ResolveTruck(form.truckType).Inherited?
    ensures var rows := GenerateServiceInfo(form, Some(pickup), Some(drop), serviceType, requiresManeuver, env);
            rows[30] == "Service Cost: $NaN" && rows[31] == "Total Cost: $NaN"
  {
    var f := CostFiguresOf(form, Some(pickup), Some(drop), requiresManeuver, env.routeDistance);
    assert f.totalCost == NaN;
    var front := HeaderValues(form, env) + LocationValues(Some(pickup), Some(drop), env) + VehicleValues(form)
                 + ServiceValues(form, serviceType, requiresManeuver);
    var cost := CostValues(form, f, env.fixed2);
    var rows := GenerateServiceInfo(form, Some(pickup), Some(drop), serviceType, requiresManeuver, env);
    assert rows == Attach(Layout, front + cost);
    assert |front| == 27;
    assert Layout[27..] == CostLayout;
    assert (front + cost)[27..] == cost;
    assert cost[3] == "NaN" && cost[4] == "NaN";
    assert rows[30] == "Service Cost: $" + cost[3];
    assert rows[31] == "Total Cost: $" + cost[4];
  }

  /** The four cost rows close the export and show the engine's prices on a priced route. */
  lemma CostRows(form: FormData, pickup: Location, drop: Location, serviceType: string,
                 requiresManeuver: bool, env: Environment, c: TruckClass)
    requires env.routeDistance.Some?
    requires Pricing.ResolveTruck(form.truckType) == Pricing.Found(c)
    ensures var rows := GenerateServiceInfo(form, Some(pickup), Some(drop), serviceType, requiresManeuver, env);
            var d := env.routeDistance.value;
            rows[28..] == [
              "Total Distance: " + env.fixed2(d) + " km",
              "Toll Fees: $" + env.fixed2(form.tollFees),
              "Service Cost: $" + env.fixed2(Pricing.Cost(d, c, requiresManeuver, 0.0, false)),
              "Total Cost: $" + env.fixed2(Pricing.Cost(d, c, requiresManeuver, form.tollFees, false))]
  {
    var d := env.routeDistance.value;
    var f := CostFiguresOf(form, Some(pickup), Some(drop), requiresManeuver, env.routeDistance);
    ServiceCostIsEngineCostWithoutTolls(form, pickup, drop, requiresManeuver, d, c);
    TollsNeverTaxed(form, pickup, drop, requiresManeuver, d, c);
    var front := HeaderValues(form, env) + LocationValues(Some(pickup), Some(drop), env) + VehicleValues(form)
                 + ServiceValues(form, serviceType, requiresManeuver);
    var cost := CostValues(form, f, env.fixed2);
    var rows := GenerateServiceInfo(form, Some(pickup), Some(drop), serviceType, requiresManeuver, env);
    assert rows == Attach(Layout, front + cost);
    assert |front| == 27;
    assert Layout[27..] == CostLayout;
    assert (front + cost)[27..] == cost;
    assert cost[1] == env.fixed2(d) + " km" && cost[2] == env.fixed2(form.tollFees);
    assert cost[3] == env.fixed2(Pricing.Cost(d, c, requiresManeuver, 0.0, false));
    assert cost[4] == env.fixed2(Pricing.Cost(d, c, requiresManeuver, form.tollFees, false));
    assert rows[28] == "Total Distance: " + (env.fixed2(d) + " km");
    assert rows[29] == "Toll Fees: $" + cost[2];
    assert rows[30] == "Service Cost: $" + cost[3];
    assert rows[31] == "Total Cost: $" + cost[4];
    assert "Total Distance: " + env.fixed2(d) + " km" == "Total Distance: " + (env.fixed2(d) + " km");
    assert rows[28..] == [rows[28], rows[29], rows[30], rows[31]];
  }

  lemma CoordinateRowsHaveComma(form: FormData, pickup: Option<Location>, drop: Option<Location>,
                                serviceType: string, requiresManeuver: bool, env: Environment)
    ensures var rows := GenerateServiceInfo(form, pickup, drop, serviceType, requiresManeuver, env);
            ',' in rows[9] && ',' in rows[13]
  {
    var f := CostFiguresOf(form, pickup, drop, requiresManeuver, env.routeDistance);
    var location := LocationValues(pickup, drop, env);
    var rows := GenerateServiceInfo(form, pickup, drop, serviceType, requiresManeuver, env);
    assert rows == Attach(Layout, HeaderValues(form, env) + location + VehicleValues(form)
                                  + ServiceValues(form, serviceType, requiresManeuver) + CostValues(form, f, env.fixed2));
    assert rows[9] == "Coordinates: " + Coordinates(pickup, env.fixed6);
    assert rows[13] == "Coordinates: " + Coordinates(drop, env.fixed6);
    assert rows[9][13..] == Coordinates(pickup, env.fixed6);
    assert rows[13][13..] == Coordinates(drop, env.fixed6);
  }

  /**
    The coordinate rows always hold a comma, so the CSV always quotes them; when
    no row holds a newline they are the CSV's tenth and fourteenth lines.
   */
  lemma CoordinateRowsQuoted(form: FormData, pickup: Option<Location>, drop: Option<Location>,
                             serviceType: string, requiresManeuver: bool, env: Environment)
    ensures var rows := GenerateServiceInfo(form, pickup, drop, serviceType, requiresManeuver, env);
            && QuoteRows(rows)[9] == "\"" + rows[9] + "\""
            && QuoteRows(rows)[13] == "\"" + rows[13] + "\""
            && ((forall k :: 0 <= k < |rows| ==> '\n' !in rows[k]) ==>
                  var lines := Split(EncodeCsv(rows)[1..], '\n');
                  lines[9] == "\"" + rows[9] + "\"" && lines[13] == "\"" + rows[13] + "\"")
  {
    var rows := GenerateServiceInfo(form, pickup, drop, serviceType, requiresManeuver, env);
    CoordinateRowsHaveComma(form, pickup, drop, serviceType, requiresManeuver, env);
    CommaRowQuoted(rows, 9);
    CommaRowQuoted(rows, 13);
  }

  /** A row holding a comma is quoted in the CSV, and is its own line when no row holds a newline. */
  lemma CommaRowQuoted(rows: seq<string>, i: int)
    requires 0 <= i < |rows| && ',' in rows[i]
    ensures QuoteRows(rows)[i] == "\"" + rows[i] + "\""
    ensures (forall k :: 0 <= k < |rows| ==> '\n' !in rows[k]) ==>
              var lines := Split(EncodeCsv(rows)[1..], '\n');
              |lines| == |rows| && lines[i] == "\"" + rows[i] + "\""
  {
  }

  /** Byte-order mark written ahead of the CSV rows. */
  const Bom: char := '\U{FEFF}'

  /** A row with a comma is wrapped in double quotes, with no escaping inside. */
  function QuoteRow(row: string): (text: string)
    ensures ',' in row ==> |text| == |row| + 2 && text[0] == '"' == text[|text| - 1]
                           && text[1..|text| - 1] == row
    ensures ',' !in row ==> text == row
  {
    if ',' in row then "\"" + row + "\"" else row
  }

  /** Reads back a row written by `QuoteRow`. */
  function UnquoteRow(text: string): string {
    if |text| >= 2 && text[0] == '"' && text[|text| - 1] == '"' && ',' in text[1..|text| - 1]
    then text[1..|text| - 1]
    else text
  }

  /** Quoting loses nothing: two rows quote alike only if they are equal. */
  lemma UnquoteQuote(row: string)
    ensures UnquoteRow(QuoteRow(row)) == row
  {
    if ',' !in row && |row| >= 2 {
      assert forall k :: 1 <= k < |row| - 1 ==> row[1..|row| - 1][k - 1] == row[k];
    }
  }

  function QuoteRows(rows: seq<string>): (quoted: seq<string>)
    ensures |quoted| == |rows|
    ensures forall k :: 0 <= k < |rows| ==> quoted[k] == QuoteRow(rows[k])
    decreases |rows|
  {
    if |rows| == 0 then [] else [QuoteRow(rows[0])] + QuoteRows(rows[1..])
  }

  /**
    The CSV file: byte-order mark, then the quoted rows joined by newlines. When
    no row holds a newline, the lines behind the mark are exactly the quoted rows.
   */
  function EncodeCsv(rows: seq<string>): (text: string)
    ensures |text| >= 1 && text[0] == Bom
    ensures |rows| >= 1 && (forall k :: 0 <= k < |rows| ==> '\n' !in rows[k])
            ==> Split(text[1..], '\n') == QuoteRows(rows)
  {
    var quoted := QuoteRows(rows);
    var text := [Bom] + Join(quoted, '\n');
    assert text[1..] == Join(quoted, '\n');
    if |rows| >= 1 && (forall k :: 0 <= k < |rows| ==> '\n' !in rows[k]) then
      assert forall k :: 0 <= k < |quoted| ==> '\n' !in quoted[k] by {
        forall k | 0 <= k < |quoted|
          ensures '\n' !in quoted[k]
        {
          assert ',' in rows[k] ==> quoted[k] == "\"" + rows[k] + "\"";
        }
      }
      SplitJoin(quoted, '\n');
      text
    else
      text
  }

  /** The text file: the rows joined by newlines, unquoted and without a mark. */
  function EncodeTxt(rows: seq<string>): (text: string)
    ensures |rows| >= 1 && (forall k :: 0 <= k < |rows| ==> '\n' !in rows[k])
            ==> Split(text, '\n') == rows
  {
    if |rows| >= 1 && (forall k :: 0 <= k < |rows| ==> '\n' !in rows[k]) then
      SplitJoin(rows, '\n');
      Join(rows, '\n')
    else
      Join(rows, '\n')
  }

  /** Without commas in any row the CSV is the text file behind a byte-order mark. */
  lemma CsvIsMarkedTxtWithoutCommas(rows: seq<string>)
    requires forall k :: 0 <= k < |rows| ==> ',' !in rows[k]
    ensures EncodeCsv(rows) == [Bom] + EncodeTxt(rows)
  {
    assert QuoteRows(rows) == rows;
  }

  lemma {:induction false} QuotingKeepsNewlines(rows: seq<string>)
    ensures CountAll(QuoteRows(rows), '\n') == CountAll(rows, '\n')
    decreases |rows|
  {
    if |rows| > 0 {
      QuotingKeepsNewlines(rows[1..]);
      assert QuoteRows(rows)[1..] == QuoteRows(rows[1..]);
      if ',' in rows[0] {
        CountAppend("\"" + rows[0], "\"", '\n');
        CountAppend("\"", rows[0], '\n');
      }
    }
  }

  /** The CSV and the text file of the same rows have the same number of lines. */
  lemma SameLineCount(rows: seq<string>)
    requires |rows| >= 1
    ensures Count(EncodeCsv(rows), '\n') == Count(EncodeTxt(rows), '\n')
            == |rows| - 1 + CountAll(rows, '\n')
  {
    CountJoin(rows, '\n');
    CountJoin(QuoteRows(rows), '\n');
    QuotingKeepsNewlines(rows);
    CountAppend([Bom], Join(QuoteRows(rows), '\n'), '\n');
  }

  /** Rows free of newlines come back from either file, line by line. */
  lemma RowsRecoverable(rows: seq<string>)
    requires |rows| >= 1
    requires forall k :: 0 <= k < |rows| ==> '\n' !in rows[k]
    ensures Split(EncodeTxt(rows), '\n') == rows
    ensures var lines := Split(EncodeCsv(rows)[1..], '\n');
            |lines| == |rows| && forall k :: 0 <= k < |rows| ==> UnquoteRow(lines[k]) == rows[k]
  {
    SplitJoin(rows, '\n');
    var quoted := QuoteRows(rows);
    forall k | 0 <= k < |quoted|
      ensures '\n' !in quoted[k]
    {
      assert ',' in rows[k] ==> quoted[k] == "\"" + rows[k] + "\"";
    }
    assert EncodeCsv(rows)[1..] == Join(quoted, '\n');
    SplitJoin(quoted, '\n');
    forall k | 0 <= k < |rows|
      ensures UnquoteRow(quoted[k]) == rows[k]
    {
      UnquoteQuote(rows[k]);
    }
  }

  datatype Format = Csv | Txt

  /** The file `downloadServiceInfo` hands to the browser. */
  datatype Download = Download(filename: string, mimeType: string, content: string)

  /** Builds the file for `rows`; `millis` is the printed `new Date().getTime()`. */
  function DownloadServiceInfo(format: Format, rows: seq<string>, millis: string): (file: Download)
    ensures format == Csv ==> |file.content| >= 1 && file.content[0] == Bom
  {
    match format
    case Csv => Download("service-request-" + millis + ".csv", "text/csv;charset=utf-8", EncodeCsv(rows))
    case Txt => Download("service-request-" + millis + ".txt", "text/plain;charset=utf-8", EncodeTxt(rows))
  }

  /**
    The two downloads of the same newline-free rows carry the same lines: the
    CSV download's lines, behind its byte-order mark, are the quoted rows, and
    unquoted they are the text download's lines, which are the rows themselves.
   */
  lemma DownloadsCarrySameRows(rows: seq<string>, millis: string)
    requires |rows| >= 1
    requires forall k :: 0 <= k < |rows| ==> '\n' !in rows[k]
    ensures var csv := DownloadServiceInfo(Csv, rows, millis).content;
            var txt := DownloadServiceInfo(Txt, rows, millis).content;
            var csvLines := Split(csv[1..], '\n');
            && Split(txt, '\n') == rows
            && csvLines == QuoteRows(rows)
            && |csvLines| == |rows|
            && forall k :: 0 <= k < |rows| ==> UnquoteRow(csvLines[k]) == Split(txt, '\n')[k]
  {
    RowsRecoverable(rows);
  }
}

=== FILE: text.dfy ===
/**
  String operations the source borrows from JavaScript: `includes`,
  `Array.prototype.join` and, as the inverse of `join`, `split`.
 */
module Text {

  /** `pat` occurs in `s` at index `i`. */
  predicate OccursAt(s: string, pat: string, i: int) {
    0 <= i && i + |pat| <= |s| && s[i..i + |pat|] == pat
  }

  predicate StartsWith(s: string, pat: string) {
    |pat| <= |s| && s[..|pat|] == pat
  }

  /** `s.includes(pat)`, searched suffix by suffix. */
  predicate Contains(s: string, pat: string)
    decreases |s|
  {
    StartsWith(s, pat) || (|s| > 0 && Contains(s[1..], pat))
  }

  /** The suffix search finds exactly the occurrences of `pat`. */
  lemma {:induction false} ContainsIffOccurs(s: string, pat: string)
    ensures Contains(s, pat) <==> exists i :: OccursAt(s, pat, i)
    decreases |s|
  {
    if Contains(s, pat) {
      if StartsWith(s, pat) {
        assert OccursAt(s, pat, 0);
      } else {
        ContainsIffOccurs(s[1..], pat);
        var i :| OccursAt(s[1..], pat, i);
        assert s[1..][i..i + |pat|] == s[i + 1..i + 1 + |pat|];
        assert OccursAt(s, pat, i + 1);
      }
    }
    forall i | OccursAt(s, pat, i)
      ensures Contains(s, pat)
    {
      if i == 0 {
        assert StartsWith(s, pat);
      } else {
        assert s[1..][i - 1..i - 1 + |pat|] == s[i..i + |pat|];
        assert OccursAt(s[1..], pat, i - 1);
        ContainsIffOccurs(s[1..], pat);
      }
    }
  }

  /** Whatever contains `a + pat + b` also contains `pat`. */
  lemma ContainsInfix(s: string, a: string, pat: string, b: string)
    requires Contains(s, a + pat + b)
    ensures Contains(s, pat)
  {
    ContainsIffOccurs(s, a + pat + b);
    var i :| OccursAt(s, a + pat + b, i);
    var w := a + pat + b;
    assert s[i..i + |w|] == w;
    forall k | 0 <= k < |pat|
      ensures s[i + |a| + k] == pat[k]
    {
      assert s[i + |a| + k] == s[i..i + |w|][|a| + k];
      assert w[|a| + k] == pat[k];
    }
    assert s[i + |a|..i + |a| + |pat|] == pat;
    assert OccursAt(s, pat, i + |a|);
    ContainsIffOccurs(s, pat);
  }

  /** `rows.join(sep)` for a one-character separator. */
  function Join(rows: seq<string>, sep: char): string
    decreases |rows|
  {
    if |rows| == 0 then ""
    else if |rows| == 1 then rows[0]
    else rows[0] + [sep] + Join(rows[1..], sep)
  }

  /** `s.split(sep)`: the pieces between separators; never empty. */
  function Split(s: string, sep: char): (pieces: seq<string>)
    ensures |pieces| >= 1
    ensures forall k :: 0 <= k < |pieces| ==> sep !in pieces[k]
    decreases |s|
  {
    if |s| == 0 then [""]
    else if s[0] == sep then [""] + Split(s[1..], sep)
    else
      var rest := Split(s[1..], sep);
      [[s[0]] + rest[0]] + rest[1..]
  }

  /** Number of occurrences of `c` in `s`. */
  function Count(s: string, c: char): nat
    decreases |s|
  {
    if |s| == 0 then 0 else (if s[0] == c then 1 else 0) + Count(s[1..], c)
  }

  lemma {:induction false} CountAppend(a: string, b: string, c: char)
    ensures Count(a + b, c) == Count(a, c) + Count(b, c)
    decreases |a|
  {
    if |a| == 0 {
      assert a + b == b;
    } else {
      assert (a + b)[1..] == a[1..] + b;
      CountAppend(a[1..], b, c);
    }
  }

  lemma {:induction false} SplitNoSeparator(r: string, sep: char)
    requires sep !in r
    ensures Split(r, sep) == [r]
    decreases |r|
  {
    if |r| > 0 {
      assert sep !in r[1..];
      SplitNoSeparator(r[1..], sep);
      assert [r[0]] + r[1..] == r;
    }
  }

  /** Splitting peels off a leading separator-free piece. */
  lemma {:induction false} SplitCons(r: string, sep: char, rest: string)
    requires sep !in r
    ensures Split(r + [sep] + rest, sep) == [r] + Split(rest, sep)
    decreases |r|
  {
    if |r| == 0 {
      assert r + [sep] + rest == [sep] + rest;
      assert ([sep] + rest)[1..] == rest;
    } else {
      assert (r + [sep] + rest)[1..] == r[1..] + [sep] + rest;
      assert sep !in r[1..];
      SplitCons(r[1..], sep, rest);
      assert [r[0]] + r[1..] == r;
    }
  }

  /** `split` undoes `join` when no piece contains the separator. */
  lemma {:induction false} SplitJoin(rows: seq<string>, sep: char)
    requires |rows| >= 1
    requires forall k :: 0 <= k < |rows| ==> sep !in rows[k]
    ensures Split(Join(rows, sep), sep) == rows
    decreases |rows|
  {
    if |rows| == 1 {
      SplitNoSeparator(rows[0], sep);
    } else {
      SplitCons(rows[0], sep, Join(rows[1..], sep));
      SplitJoin(rows[1..], sep);
      assert [rows[0]] + rows[1..] == rows;
    }
  }

  /** `join` adds one separator between consecutive pieces and nothing else. */
  lemma {:induction false} CountJoin(rows: seq<string>, sep: char)
    requires |rows| >= 1
    ensures Count(Join(rows, sep), sep) == |rows| - 1 + CountAll(rows, sep)
    decreases |rows|
  {
    if |rows| > 1 {
      CountJoin(rows[1..], sep);
      CountAppend(rows[0] + [sep], Join(rows[1..], sep), sep);
      CountAppend(rows[0], [sep], sep);
      assert Count([sep], sep) == 1 by {
        assert [sep][1..] == [];
      }
    }
  }

  /** Total occurrences of `c` over all pieces. */
  function CountAll(rows: seq<string>, c: char): nat
    decreases |rows|
  {
    if |rows| == 0 then 0 else Count(rows[0], c) + CountAll(rows[1..], c)
  }
}

=== FILE: wrappers.dfy ===
/** Result types shared by the other modules. */
module Wrappers {

  /** A value that may be absent, as a JavaScript `T | null`. */
  datatype Option<+T> = None | Some(value: T)

  /** Either a computed value or the error that stopped the computation. */
  datatype Result<+R, +E> = Success(value: R) | Failure(error: E)
}
